=== FILE: README.md ===
# BookMyExperience: booking admission and checkout pricing in Dafny

This is a model of the two pieces of the BookMyExperience marketplace that carry real logic.

**Booking creation (backend).** The `POST /api/bookings` handler of the Express backend:
- it validates the request fields;
- it looks up the experience, the date and the first slot whose time matches;
- it checks that slot's capacity and takes the seats from it in place;
- it computes `price * quantity + 59` and a reference id beginning with `HUF`;
- it appends a booking to the ledger.

The same file holds the `GET /api/promocode/:code` route, a lookup of the upper-cased code in the promo-code collection.

**Checkout pricing (frontend).** The checkout page computes the subtotal, the total after the discount and the total with the fixed tax of 59. It also holds:
- the `applyPromo` state machine over `promoError`, `promoApplied` and `discountAmount`;
- the e-mail check;
- the `canPay` gate on the confirm button;
- the quantity read from the page address.

## Modules

- `Wrappers` (`wrappers.dfy`): an `Option` type. It stands for JavaScript's `undefined`/`null` and for `??`.
- `Text` (`text.dfy`): the JavaScript string primitives the code relies on. These are the white-space set shared by `trim`, `parseInt` and `\s`, and `trim`, `toUpperCase`, `substring`, `length` in UTF-16 code units, `String(n)` and `parseInt(s, 10)`. Its `IndexOf` is the model's own scan for one character; the source never calls `indexOf`, and the scan serves only `Checkout.IsEmailValid`, which decides the e-mail regular expression with it. It also proves that `parseInt` reads back `String(n)`.
- `Bookings` (`bookings.dfy`): the data model (Experience with its date-to-slots map, Slot, Booking, the request and the reply). It has two forms of the handler:
  - `HandleBooking` is the handler as one atomic step on a database value. Its contract covers every outcome.
  - `Store.CreateBooking` is the handler as the source writes it: a chain of early returns, then in-place updates of the `experiences` map and the `ledger` sequence. It is proved to produce exactly what `HandleBooking` specifies.
- `BookingProperties` (`booking_properties.dfy`): invariants that every request keeps. Capacity never goes negative, and reference ids stay unique and prefixed. It also proves the seat-conservation law between the slots and the ledger.
- `CorrectedBooking` (`corrected_booking.dfy`): the handler with a positive quantity required, the name and e-mail checked before any write, and no seats taken for a booking the ledger refuses.
- `Promos` (`promos.dfy`): the promo-code route over a map from code to document, with the two seeded codes.
- `Checkout` (`checkout.dfy`): the pricing functions and the `PromoForm` class, whose `ApplyPromo` method updates the three promo fields. It also holds the e-mail check, proved equal to the regular expression it implements, and `OnConfirm`/`CanPay`.
- `PricingAgreement` (`pricing_agreement.dfy`): how the total the page shows relates to the total the handler charges.

## What the model shows about the code as written

- **Negative quantity.** The handler accepts any non-zero quantity (backend/app.js:38, 50). A negative one is truthy and never larger than a non-negative capacity. It is therefore admitted, the slot *gains* seats, and for a positive price a confirmed booking's total is below 59 (`BookingProperties.NegativeQuantityAddsSeats`). The booking schema sets no minimum either.
- **Seats lost when the ledger write fails.** The experience is saved before the booking. The booking schema requires `userName` and `userEmail` and a unique `refId` (backend/models/Booking.js:10-11, 16), which the handler never checks. A request that fails these gets a 500, but its seats are already gone (`BookingProperties.MissingNameLosesSeats`, `BookingProperties.BookingConservesSeats`). On every other path, free seats plus seats recorded in the ledger are conserved.
- `CorrectedBooking` models the handler with both of these repaired. It proves that no request raises any slot's free seats and that seats are conserved with no exception (see "## Findings").
- **The handler takes no promo code.** For the price and quantity the checkout page prices, the handler would charge the page's undiscounted total (`PricingAgreement.ServerChargesUndiscountedTotal`). No frontend code calls either backend route, though:
  - `onConfirm` only passes the form to the confirmation page as address parameters;
  - the confirm button of the details page has no action yet;
  - `applyPromo` knows its two codes itself instead of asking the promo route.

  So this compares two computations; it is not an overcharge a customer can meet today.
- **Lower-case stored codes cannot be found.** The promo route upper-cases the query but not the stored codes. A stored code containing a lower-case letter is therefore never found (`Promos.LowerCaseCodeUnreachable`). Both seeded codes are upper-case, so this does not show today.

## Model

| member | source | states |
|---|---|---|
| `Text.Trim` | frontend/src/app/checkout/page.tsx:97 | `trim` keeps exactly the infix between the first and last non-white-space characters; every non-white-space character of the input lies inside it |
| `Text.Utf16Length` | frontend/src/app/checkout/page.tsx:129 | a string's `length` lies between its number of characters and twice that, and equals it exactly when no character is above U+FFFF |
| `Text.Substring` | backend/app.js:58 | `substring(start, end)` is the slice between the two positions, each clamped to the length; it is empty when `start` is past the end |
| `Text.Upper` | backend/app.js:81 | upper-casing keeps the length, leaves no lower-case ASCII letter and changes nothing else |
| `Text.UpperIdempotent` | backend/app.js:81 | upper-casing twice is upper-casing once |
| `Text.IntText` | backend/app.js:90-91 | the decimal text of an integer starts with '-' exactly when it is negative, and its digits are those of the absolute value |
| `Text.ParseInt` | frontend/src/app/checkout/page.tsx:39 | `parseInt` gives `NaN` exactly when no digit follows the leading white space and optional sign |
| `Text.ParseIntReadsIntText` | frontend/src/app/checkout/page.tsx:39 | `parseInt` reads back `String(n)` for every integer n, with leading white space skipped and non-digit trailing text ignored |
| `Bookings.FindSlot` | backend/app.js:49 | `find` on the time returns the first slot whose time is exactly the requested one, or nothing when no slot has it |
| `Bookings.RefId` | backend/app.js:58 | the reference id starts with "HUF", is at most 8 characters long and has no lower-case letter after the prefix |
| `Bookings.HandleBooking` | backend/app.js:35-77 | a 201 carries "Booking confirmed". Missing or falsy fields (quantity 0 included) give 400 "Missing required fields". An unknown id gives 404 "Experience not found", an unknown date 400 "Invalid date selected", and no matching slot or too few seats 400 "Not enough availability"; each of these changes nothing. Seats move exactly when the request is admissible: only the first matching slot loses exactly `quantity`, and it stays at or above 0. A 201 appends exactly one booking with the request's fields, `price*quantity+59` and the reply's "HUF" refId. A 500 "Failed to create booking" leaves the ledger unchanged but keeps the decrement |
| `Bookings.Store.CreateBooking` | backend/app.js:35-77 | the in-place handler (early returns, slot update written back into the experience map, ledger append) yields exactly the reply and database `HandleBooking` specifies |
| `BookingProperties.HandlePreservesCapacityNonNegative` | backend/app.js:49-53 | if no slot is negative before a request, none is negative after it, whatever the request |
| `BookingProperties.HandleKeepsLedgerWellFormed` | backend/app.js:58-70 | the ledger only grows by at most one entry at its end, and its reference ids stay unique and "HUF"-prefixed |
| `BookingProperties.BookingConservesSeats` | backend/app.js:49-70 | for every (experience, date, time), free seats plus seats booked in the ledger are unchanged by any request, except that a 500 after the decrement loses the request's quantity |
| `BookingProperties.NegativeQuantityAddsSeats` | backend/app.js:38-57 | when no slot is negative, a negative quantity whose slot exists is always admitted and raises that slot's free seats by its absolute value; for a positive price, a confirmed booking's total is below 59 |
| `BookingProperties.MissingNameLosesSeats` | backend/app.js:53-70 | an admissible request with an empty name gets 500 "Failed to create booking", records nothing in the ledger and still takes its seats |
| `CorrectedBooking.HandleBookingCorrected` | backend/app.js:37-70 | the repaired handler: a request without a positive quantity, a name or an e-mail gets 400; every failure leaves the database unchanged; it confirms exactly the valid requests the handler confirms, with the same outcome |
| `CorrectedBooking.CorrectedConservesSeats` | backend/app.js:49-70 | with the repair, free seats plus booked seats are unchanged by every request, with no exception |
| `CorrectedBooking.CorrectedNeverAddsSeats` | backend/app.js:38-53 | with the repair, no request raises the free seats of any (experience, date, time) |
| `Promos.CheckPromo` | backend/app.js:79-92 | the code is found exactly when its upper-cased form is a key. A found code carries the stored discount type and value and its "off applied" message; a missing one gives the 404 "Invalid promo code" reply |
| `Promos.OffMessageReadsValue` | backend/app.js:88-91 | the message of a found code states its value: a percentage message starts with its decimal text, a flat one has it after the rupee sign, and `parseInt` reads the value back |
| `Promos.CheckPromoQueriesCode` | backend/app.js:81 | for a table filed by code, the lookup finds a code exactly when some document's `code` equals the upper-cased query |
| `Promos.CheckPromoIgnoresCase` | backend/app.js:81 | a query and its upper-cased form get the same reply |
| `Promos.LowerCaseCodeUnreachable` | backend/app.js:81 | a stored code with a lower-case letter is never the upper-cased form of any query, and removing its document changes the route's reply to no query |
| `Promos.SeededCodes` | backend/seedDB.js:30-33 | with the seeded table, any spelling of SAVE10 gives percentage 10 "10% off applied", any spelling of FLAT100 gives flat 100 "₹100 off applied", and every other code gives 404 |
| `Checkout.QtyParam` | frontend/src/app/checkout/page.tsx:39 | the quantity from the address is never 0. It is the parsed integer when that is non-zero, and 1 when the parameter is absent, unparsable (`NaN`) or parses to 0 |
| `Checkout.QtyParamReadsQuantity` | frontend/src/app/checkout/page.tsx:39 | a non-zero quantity written into the address, with leading white space allowed, is read back as itself |
| `Checkout.Subtotal` | frontend/src/app/checkout/page.tsx:83-85 | the subtotal is 0 when no experience is loaded, and non-negative for a non-negative price and quantity |
| `Checkout.TotalAfterDiscount` | frontend/src/app/checkout/page.tsx:87-90 | the discounted amount is the larger of 0 and subtotal minus discount |
| `Checkout.Total` | frontend/src/app/checkout/page.tsx:92 | the total is at least the tax of 59, and with a non-negative discount exceeds the tax by at most the subtotal's positive part (0 for a negative subtotal, which a negative `qty` in the address produces) |
| `Checkout.RoundHalfUp` | frontend/src/app/checkout/page.tsx:103 | `Math.round(num/den)` is the nearest integer, with a half rounding up |
| `Checkout.Save10Discount` | frontend/src/app/checkout/page.tsx:102-106 | the SAVE10 discount is within 5 units of a tenth of the subtotal, rounding a half upwards |
| `Checkout.Save10ClosedForm` | frontend/src/app/checkout/page.tsx:103 | the SAVE10 discount equals `(subtotal + 5) div 10` |
| `Checkout.Flat100Discount` | frontend/src/app/checkout/page.tsx:107-111 | the FLAT100 discount is at most 100 and at most the subtotal, and is one of the two |
| `Checkout.DiscountsWithinSubtotal` | frontend/src/app/checkout/page.tsx:102-111 | for a non-negative subtotal, both discounts lie between 0 and the subtotal |
| `Checkout.PromoExamples` | frontend/src/app/checkout/page.tsx:102-111 | SAVE10 on 1000 is 100 (on 15 it is 2, on 14 it is 1); FLAT100 on 50 is 50 and on 250 is 100 |
| `Checkout.ConsistentTotalIsExact` | frontend/src/app/checkout/page.tsx:87-117 | with promo fields as `applyPromo` leaves them and a non-negative subtotal, the `max` never clips: total = subtotal - discount + 59 |
| `Checkout.CheckoutAgreesWithSeededCodes` | frontend/src/app/checkout/page.tsx:102-111 | the page's discount for SAVE10 and for FLAT100 is the one the seeded descriptor of that code describes |
| `Checkout.PromoForm.constructor` | frontend/src/app/checkout/page.tsx:47-50 | the promo fields start empty, null and 0, which is a consistent state |
| `Checkout.PromoForm.EditCode` | frontend/src/app/checkout/page.tsx:246 | typing sets the promo-code input and nothing else |
| `Checkout.PromoForm.ApplyPromo` | frontend/src/app/checkout/page.tsx:95-117 | works on the trimmed, upper-cased code. An empty code sets "Enter a promo code" and keeps the applied code and discount. SAVE10 and FLAT100 record the code, set their discount and clear the error. Any other code sets "Invalid promo code", null and 0. A non-empty code is applied exactly when it is a key of the seeded promo table, with the discount its descriptor describes. The consistency of the promo fields is preserved |
| `Checkout.IsEmailValid` | frontend/src/app/checkout/page.tsx:120-121 | the e-mail check accepts exactly the strings `a@b.c` with a, b, c non-empty and free of white space and '@' (the language of the regular expression), in both directions |
| `Checkout.CanPay` | frontend/src/app/checkout/page.tsx:123-133 | the confirm button is enabled exactly when an experience is loaded, date and time are set, the quantity is positive, the trimmed name is at least two UTF-16 code units long, the e-mail matches the pattern and the terms are agreed |
| `Checkout.CanPayCountsCodeUnits` | frontend/src/app/checkout/page.tsx:129 | a name of one character above U+FFFF passes the name check, and a one-letter ASCII name does not |
| `Checkout.OnConfirm` | frontend/src/app/checkout/page.tsx:135-147 | confirming yields a payload exactly when `canPay` holds. The payload carries the form's experience id, date, time, quantity, name and e-mail, the applied code or "", and the discount, and then meets every check of the gate |
| `PricingAgreement.ServerChargesUndiscountedTotal` | backend/app.js:57 | both sides use the tax 59. For the price and quantity the page prices, the handler charges the page's total without discount; a discount the page shows would not be taken off |

## Left out

- Concurrency: the handler is one atomic step. The lost-update race between parallel requests (read, check, then write) is not modelled.
- Randomness: the random base-36 text the reference id is cut from is a parameter of the handler.
- Database failures other than the booking write (connection loss, a failing `experience.save()`) are not modelled. Neither is the 500 path of the promo route.
- A malformed experience id makes `findById` throw a cast error and the handler reply 500. The model treats every absent id as unknown (404), because ObjectId parsing is Mongoose's, not the handler's.
- An experience whose `slots` map is absent makes the handler throw (500). In the model every experience has a (possibly empty) slot map.
- JSON type coercion: request fields are strings and an integer quantity. Fractional or string quantities, and comparisons across types, are not modelled.
- Booking timestamps are not modelled, because nothing in the flow reads them.
- `availableDates` is kept as data only. The handler never consults it, so its drift from the slot map's keys is not checked.
- The listing routes (`GET /api/experiences`, `GET /api/experiences/:id`, `GET /ping`), the database connection and start-up files, and the seeding script are not modelled. Only the seeding script's two promo codes are used, as model data.
- Floating point: money is an unbounded integer. `Math.round` is modelled on exact rationals. Precision loss above 2^53 and `parseInt` of very long digit strings are not modelled.
- `Text.Upper`: covers ASCII letters only, because JavaScript's full Unicode case mapping (which can change a string's length) is not modelled.
- Currency formatting with `Intl.NumberFormat` is not modelled.
- The axios fetch and loading state, the `URLSearchParams`/`router.push` navigation (`OnConfirm` returns the payload instead) and all rendering are not modelled.
- `Checkout.PromoForm`: the subtotal is fixed when the form is made. The page recomputes the subtotal when the quantity or the experience changes, but it does not recompute `discountAmount`. So `Consistent()` is promised only while the quantity and the experience stay the same.
- The corrected handler answers a negative quantity with 400 "Invalid quantity". That message is the model's own; the source has no such branch.
- React state updates are applied in program order. The final state after `applyPromo` is the same as React's batched result.
- The other pages and components (home, experience details, confirmation, navigation bar, loader) and the styling configuration are presentation only and are not modelled.

## Findings

| source | as written | input that shows it | evidently intended | confidence | as-written member | corrected member |
|---|---|---|---|---|---|---|
| backend/app.js:38-53 | any non-zero quantity passes; `slot.available < quantity` never refuses a negative one while the slot's capacity is non-negative, and `-=` then adds seats | quantity -2 for a slot with 5 free seats: the request is admitted and the slot has 7 | only a positive quantity is admitted, so a booking never adds seats | not executed; high | `BookingProperties.NegativeQuantityAddsSeats` | `CorrectedBooking.CorrectedNeverAddsSeats` |
| backend/app.js:53-70 | the decremented experience is saved before the booking, whose schema requires a name, an e-mail and a unique refId | an admissible request with `userName` "": reply 500, nothing in the ledger, and the seats are gone | the booking's fields are checked before any write, and no seats are taken unless the booking is stored | not executed; high | `BookingProperties.MissingNameLosesSeats` | `CorrectedBooking.CorrectedConservesSeats` |

=== FILE: booking_properties.dfy ===
/**
 * Properties of booking creation that relate the database before and after
 * a request: capacity never goes negative, the ledger stays well formed, and
 * seats are conserved between the slots and the ledger, except on the path
 * where the ledger write fails after the slot was already decremented.
 */
module BookingProperties {
  import opened Wrappers
  import opened Bookings

  /** Every slot of every experience has a non-negative number of free seats. */
  ghost predicate CapacityNonNegative(exps: map<ExperienceId, Experience>)
  {
    forall id, d, k :: id in exps && d in exps[id].slots && 0 <= k < |exps[id].slots[d]| ==>
      exps[id].slots[d][k].available >= 0
  }

  /** No two ledger entries share a reference id. */
  ghost predicate RefIdsUnique(ledger: seq<Booking>)
  {
    forall j, k :: 0 <= j < k < |ledger| ==> ledger[j].refId != ledger[k].refId
  }

  /** Every ledger entry's reference id starts with the prefix. */
  ghost predicate RefIdsPrefixed(ledger: seq<Booking>)
  {
    forall j :: 0 <= j < |ledger| ==> |ledger[j].refId| >= 3 && ledger[j].refId[..3] == REF_PREFIX
  }

  /** The free seats of the slot a request for (`id`, `date`, `time`) would take; 0 when there is none. */
  function Remaining(exps: map<ExperienceId, Experience>, id: ExperienceId, date: string, time: string): int
  {
    if id in exps && date in exps[id].slots then
      var slots := exps[id].slots[date];
      match FindSlot(slots, time)
      case Some(i) => slots[i].available
      case None => 0
    else 0
  }

  /** The seats the ledger records as booked for (`id`, `date`, `time`). */
  function Booked(ledger: seq<Booking>, id: ExperienceId, date: string, time: string): int
  {
    if ledger == [] then 0
    else
      var b := ledger[|ledger| - 1];
      Booked(ledger[..|ledger| - 1], id, date, time)
      + if b.experience == id && b.date == date && b.time == time then b.quantity else 0
  }

  /** Which slot a time finds depends only on the slots' times. */
  lemma FindSlotSameTimes(s: seq<Slot>, s': seq<Slot>, time: string)
    requires |s| == |s'|
    requires forall k :: 0 <= k < |s| ==> s'[k].time == s[k].time
    ensures FindSlot(s', time) == FindSlot(s, time)
  {
  }

  /** No request, however malformed, drives a slot's capacity below zero. */
  lemma HandlePreservesCapacityNonNegative(db: Db, req: BookingRequest, randomText: string)
    requires CapacityNonNegative(db.experiences)
    ensures CapacityNonNegative(HandleBooking(db, req, randomText).db.experiences)
  {
  }

  /** The ledger only grows at its end, and keeps unique, prefixed reference ids. */
  lemma HandleKeepsLedgerWellFormed(db: Db, req: BookingRequest, randomText: string)
    requires RefIdsUnique(db.ledger) && RefIdsPrefixed(db.ledger)
    ensures var ledger := HandleBooking(db, req, randomText).db.ledger;
      && |db.ledger| <= |ledger| <= |db.ledger| + 1
      && ledger[..|db.ledger|] == db.ledger
      && RefIdsUnique(ledger) && RefIdsPrefixed(ledger)
  {
  }

  /**
   * Seats are conserved: for every (experience, date, time), the free seats plus
   * the seats the ledger records stay the same across any request, except that
   * a request whose ledger write fails (500) still takes its seats.
   */
  lemma BookingConservesSeats(db: Db, req: BookingRequest, randomText: string,
                              id: ExperienceId, date: string, time: string)
    ensures var out := HandleBooking(db, req, randomText);
      var lost := if out.reply.Status() == 500 && req.experienceId == Some(id)
                     && req.date == Some(date) && req.time == Some(time)
                  then req.quantity.value else 0;
      Remaining(out.db.experiences, id, date, time) + Booked(out.db.ledger, id, date, time)
      == Remaining(db.experiences, id, date, time) + Booked(db.ledger, id, date, time) - lost
  {
    var out := HandleBooking(db, req, randomText);
    if out.reply.Status() in {201, 500} {
      var i: nat :| Admissible(db, req, i);
      var rid, rdate, rtime, q := req.experienceId.value, req.date.value, req.time.value, req.quantity.value;
      var before, after := db.experiences, out.db.experiences;
      if id == rid && date == rdate {
        var s, s' := before[id].slots[date], after[id].slots[date];
        FindSlotSameTimes(s, s', time);
        FindSlotSameTimes(s, s', rtime);
        assert FindSlot(s, rtime) == Some(i);
        if time == rtime {
          assert Remaining(after, id, date, time) == Remaining(before, id, date, time) - q;
        } else {
          assert Remaining(after, id, date, time) == Remaining(before, id, date, time);
        }
      } else {
        assert Remaining(after, id, date, time) == Remaining(before, id, date, time);
      }
      if out.reply.Confirmed? {
        assert out.db.ledger[..|db.ledger|] == db.ledger;
      }
    }
  }

  /**
   * A negative quantity is truthy and never exceeds a non-negative capacity, so
   * it is admitted whenever its slot exists, and it adds seats instead of taking them.
   */
  lemma NegativeQuantityAddsSeats(db: Db, req: BookingRequest, randomText: string)
    requires FieldsPresent(req) && req.quantity.value < 0
    requires CapacityNonNegative(db.experiences)
    requires req.experienceId.value in db.experiences
    requires req.date.value in db.experiences[req.experienceId.value].slots
    requires FindSlot(db.experiences[req.experienceId.value].slots[req.date.value], req.time.value).Some?
    ensures var out := HandleBooking(db, req, randomText);
      var id, date, time := req.experienceId.value, req.date.value, req.time.value;
      && out.reply.Status() in {201, 500}
      && Remaining(out.db.experiences, id, date, time)
         == Remaining(db.experiences, id, date, time) - req.quantity.value
      && Remaining(out.db.experiences, id, date, time) > Remaining(db.experiences, id, date, time)
      && (out.reply.Confirmed? && db.experiences[id].price > 0 ==> out.reply.totalAmount < TAXES)
  {
  }

  /**
   * A request whose slot exists and has room but whose name is empty is refused
   * with 500 by the ledger, after its seats were taken: they are lost.
   */
  lemma MissingNameLosesSeats(db: Db, req: BookingRequest, randomText: string)
    requires FieldsPresent(req) && req.quantity.value > 0
    requires req.userName == Some("")
    requires req.experienceId.value in db.experiences
    requires req.date.value in db.experiences[req.experienceId.value].slots
    requires var slots := db.experiences[req.experienceId.value].slots[req.date.value];
      var found := FindSlot(slots, req.time.value);
      found.Some? && slots[found.value].available >= req.quantity.value
    ensures var out := HandleBooking(db, req, randomText);
      var id, date, time := req.experienceId.value, req.date.value, req.time.value;
      && out.reply == Failed(500, "Failed to create booking")
      && Booked(out.db.ledger, id, date, time) == Booked(db.ledger, id, date, time)
      && Remaining(out.db.experiences, id, date, time)
         == Remaining(db.experiences, id, date, time) - req.quantity.value
  {
    BookingConservesSeats(db, req, randomText, req.experienceId.value, req.date.value, req.time.value);
  }
}

=== FILE: bookings.dfy ===
/**
 * Booking creation: the `POST /api/bookings` handler of the backend, over an
 * in-memory model of the two collections it touches, the experiences (keyed by
 * id, each with a map from date to its ordered slots) and the booking ledger.
 *
 * `HandleBooking` is the handler as one atomic step on a database value;
 * `Store.CreateBooking` performs the same steps in place, in the handler's order.
 */
module Bookings {
  import opened Wrappers
  import opened Text

  type ExperienceId = string

  /** A time offering on one date and the number of seats still free. */
  datatype Slot = Slot(time: string, available: int)

  datatype Experience = Experience(
    title: string,
    location: string,
    description: string,
    about: Option<string>,
    price: int,
    image: string,
    availableDates: seq<string>,
    slots: map<string, seq<Slot>>)

  /** A ledger entry; entries are only ever appended. */
  datatype Booking = Booking(
    experience: ExperienceId,
    userName: string,
    userEmail: string,
    date: string,
    time: string,
    quantity: int,
    totalAmount: int,
    refId: string)

  /** The JSON body of the request; `None` is a field the body leaves out or sends as `null`. */
  datatype BookingRequest = BookingRequest(
    experienceId: Option<string>,
    userName: Option<string>,
    userEmail: Option<string>,
    date: Option<string>,
    time: Option<string>,
    quantity: Option<int>)

  /** The HTTP response: 201 with the reference and the total, or an error status with its message. */
  datatype BookingReply =
    | Confirmed(refId: string, totalAmount: int)
    | Failed(status: int, message: string)
  {
    function Status(): int
    {
      if Confirmed? then 201 else status
    }

    /** The `message` field of the response body. */
    function Message(): string
    {
      if Confirmed? then "Booking confirmed" else message
    }
  }

  datatype Db = Db(experiences: map<ExperienceId, Experience>, ledger: seq<Booking>)

  datatype Outcome = Outcome(reply: BookingReply, db: Db)

  /** The fixed surcharge added to every booking total. */
  const TAXES := 59

  const REF_PREFIX := "HUF"

  /** JavaScript truthiness of an optional string: present and non-empty. */
  predicate Truthy(v: Option<string>)
  {
    v.Some? && v.value != ""
  }

  /** The first check of the handler; a quantity of 0 is falsy and so counts as missing. */
  predicate FieldsPresent(req: BookingRequest)
  {
    Truthy(req.experienceId) && Truthy(req.date) && Truthy(req.time)
    && req.quantity.Some? && req.quantity.value != 0
  }

  /** `Array.prototype.find` on the time label: the index of the first slot with exactly that time. */
  function FindSlot(slots: seq<Slot>, time: string): (r: Option<nat>)
    ensures r.Some? ==> r.value < |slots| && slots[r.value].time == time
    ensures r.Some? ==> forall k :: 0 <= k < r.value ==> slots[k].time != time
    ensures r.None? ==> forall k :: 0 <= k < |slots| ==> slots[k].time != time
  {
    if slots == [] then None
    else if slots[0].time == time then Some(0)
    else match FindSlot(slots[1..], time)
      case None => None
      case Some(i) => Some(i + 1)
  }

  /**
   * The reference id: the prefix followed by characters 2 to 7 of the text of a
   * random number in base 36, upper-cased. `randomText` is that text.
   */
  function RefId(randomText: string): (r: string)
    ensures 3 <= |r| <= 8 && r[..3] == REF_PREFIX
    ensures forall i :: 3 <= i < |r| ==> !IsAsciiLower(r[i])
  {
    REF_PREFIX + Upper(Substring(randomText, 2, 7))
  }

  /**
   * Whether saving the booking succeeds: the schema requires a non-empty name
   * and e-mail, and its unique index refuses a reference already in the ledger.
   */
  predicate LedgerAccepts(ledger: seq<Booking>, req: BookingRequest, refId: string)
  {
    Truthy(req.userName) && Truthy(req.userEmail)
    && forall b :: b in ledger ==> b.refId != refId
  }

  /** Slot `i` is the first slot in `slots` whose time is exactly `time`. */
  ghost predicate IsFirstSlot(slots: seq<Slot>, time: string, i: nat)
  {
    i < |slots| && slots[i].time == time && forall k :: 0 <= k < i ==> slots[k].time != time
  }

  /** The request passes every check of the handler, and slot `i` of its date is the one it takes. */
  ghost predicate Admissible(db: Db, req: BookingRequest, i: nat)
  {
    && FieldsPresent(req)
    && req.experienceId.value in db.experiences
    && req.date.value in db.experiences[req.experienceId.value].slots
    && var slots := db.experiences[req.experienceId.value].slots[req.date.value];
       IsFirstSlot(slots, req.time.value, i) && slots[i].available >= req.quantity.value
  }

  /**
   * `after` is `before` with `q` seats taken from slot `i` of `date` of experience
   * `id`, and nothing else different.
   */
  ghost predicate SeatsTaken(
    before: map<ExperienceId, Experience>, after: map<ExperienceId, Experience>,
    id: ExperienceId, date: string, i: nat, q: int)
    requires id in before && date in before[id].slots && i < |before[id].slots[date]|
  {
    var old_slots := before[id].slots[date];
    && after.Keys == before.Keys
    && (forall e :: e in before && e != id ==> after[e] == before[e])
    && after[id] == before[id].(slots := after[id].slots)
    && after[id].slots.Keys == before[id].slots.Keys
    && (forall d :: d in before[id].slots && d != date ==> after[id].slots[d] == before[id].slots[d])
    && |after[id].slots[date]| == |old_slots|
    && (forall k :: 0 <= k < |old_slots| && k != i ==> after[id].slots[date][k] == old_slots[k])
    && after[id].slots[date][i].time == old_slots[i].time
    && after[id].slots[date][i].available == old_slots[i].available - q
  }

  /**
   * `POST /api/bookings` as one atomic step: the reply and the database afterwards.
   * `randomText` stands for the random base-36 text the reference id is cut from.
   */
  function HandleBooking(db: Db, req: BookingRequest, randomText: string): (out: Outcome)
    // the three statuses a request can get besides 201
    ensures out.reply.Failed? ==> out.reply.status in {400, 404, 500}
    ensures !FieldsPresent(req) ==> out.reply == Failed(400, "Missing required fields")
    ensures out.reply.Status() == 404 <==>
              FieldsPresent(req) && req.experienceId.value !in db.experiences
    ensures out.reply.Status() == 201 ==> out.reply.Message() == "Booking confirmed"
    ensures out.reply.Status() == 404 ==> out.reply.message == "Experience not found"
    ensures out.reply.Status() == 500 ==> out.reply.message == "Failed to create booking"
    ensures FieldsPresent(req) && req.experienceId.value in db.experiences
            && req.date.value !in db.experiences[req.experienceId.value].slots ==>
              out.reply == Failed(400, "Invalid date selected")
    ensures FieldsPresent(req) && req.experienceId.value in db.experiences
            && req.date.value in db.experiences[req.experienceId.value].slots
            && !(exists i: nat :: Admissible(db, req, i)) ==>
              out.reply == Failed(400, "Not enough availability")
    // a client error changes nothing
    ensures out.reply.Status() in {400, 404} ==> out.db == db
    // seats move exactly when the request is admissible, and then only the first matching slot loses them
    ensures (exists i: nat :: Admissible(db, req, i)) <==> out.reply.Status() in {201, 500}
    ensures forall i: nat {:trigger Admissible(db, req, i)} :: Admissible(db, req, i) ==>
              && SeatsTaken(db.experiences, out.db.experiences,
                            req.experienceId.value, req.date.value, i, req.quantity.value)
              && out.db.experiences[req.experienceId.value].slots[req.date.value][i].available >= 0
    // the ledger grows by exactly one entry, and only on 201
    ensures out.reply.Failed? ==> out.db.ledger == db.ledger
    ensures out.reply.Confirmed? ==>
              && FieldsPresent(req) && req.experienceId.value in db.experiences
              && out.reply.totalAmount == db.experiences[req.experienceId.value].price * req.quantity.value + TAXES
              && Truthy(req.userName) && Truthy(req.userEmail)
              && out.reply.refId == RefId(randomText) && out.reply.refId[..3] == REF_PREFIX
              && out.db.ledger == db.ledger + [Booking(req.experienceId.value, req.userName.value,
                   req.userEmail.value, req.date.value, req.time.value, req.quantity.value,
                   out.reply.totalAmount, out.reply.refId)]
    ensures out.reply.Confirmed? <==>
              (exists i: nat :: Admissible(db, req, i)) && LedgerAccepts(db.ledger, req, RefId(randomText))
  {
    if !FieldsPresent(req) then Outcome(Failed(400, "Missing required fields"), db)
    else
      var id, date, time, quantity := req.experienceId.value, req.date.value, req.time.value, req.quantity.value;
      if id !in db.experiences then Outcome(Failed(404, "Experience not found"), db)
      else
        var experience := db.experiences[id];
        if date !in experience.slots then Outcome(Failed(400, "Invalid date selected"), db)
        else
          var slots := experience.slots[date];
          var found := FindSlot(slots, time);
          if found.None? || slots[found.value].available < quantity then
            assert forall i: nat :: !Admissible(db, req, i);
            Outcome(Failed(400, "Not enough availability"), db)
          else
            var i := found.value;
            assert Admissible(db, req, i);
            var newSlots := slots[i := slots[i].(available := slots[i].available - quantity)];
            var experiences := db.experiences[id := experience.(slots := experience.slots[date := newSlots])];
            var totalAmount := experience.price * quantity + TAXES;
            var refId := RefId(randomText);
            if !LedgerAccepts(db.ledger, req, refId) then
              Outcome(Failed(500, "Failed to create booking"), Db(experiences, db.ledger))
            else
              var booking := Booking(id, req.userName.value, req.userEmail.value, date, time,
                                     quantity, totalAmount, refId);
              Outcome(Confirmed(refId, totalAmount), Db(experiences, db.ledger + [booking]))
  }

  /** The database as the handler works on it: updated in place, one step at a time. */
  class Store {
    var experiences: map<ExperienceId, Experience>
    var ledger: seq<Booking>

    constructor (experiences: map<ExperienceId, Experience>)
      ensures this.experiences == experiences && ledger == []
    {
      this.experiences := experiences;
      ledger := [];
    }

    function State(): Db
      reads this
    {
      Db(experiences, ledger)
    }

    /**
     * The handler body: a chain of early returns, then the slot decrement and
     * the experience write, then the total, the reference and the ledger write.
     */
    method CreateBooking(req: BookingRequest, randomText: string) returns (reply: BookingReply)
      modifies this
      ensures Outcome(reply, State()) == HandleBooking(old(State()), req, randomText)
    {
      if !FieldsPresent(req) {
        return Failed(400, "Missing required fields");
      }
      var id, date, time, quantity := req.experienceId.value, req.date.value, req.time.value, req.quantity.value;
      if id !in experiences {
        return Failed(404, "Experience not found");
      }
      var experience := experiences[id];
      if date !in experience.slots {
        return Failed(400, "Invalid date selected");
      }
      var availableSlots := experience.slots[date];
      var slot := FindSlot(availableSlots, time);
      if slot.None? || availableSlots[slot.value].available < quantity {
        return Failed(400, "Not enough availability");
      }
      var i := slot.value;
      availableSlots := availableSlots[i := availableSlots[i].(available := availableSlots[i].available - quantity)];
      experience := experience.(slots := experience.slots[date := availableSlots]);
      experiences := experiences[id := experience];

      var totalAmount := experience.price * quantity + TAXES;
      var refId := RefId(randomText);
      if !LedgerAccepts(ledger, req, refId) {
        return Failed(500, "Failed to create booking");
      }
      ledger := ledger + [Booking(id, req.userName.value, req.userEmail.value, date, time,
                                  quantity, totalAmount, refId)];
      reply := Confirmed(refId, totalAmount);
    }
  }
}

=== FILE: checkout.dfy ===
/**
 * The checkout page of the frontend: the price shown to the customer, the
 * promo-code box with its three state fields, the e-mail check, the gate on
 * the confirm button, and the quantity read from the page address.
 */
module Checkout {
  import opened Wrappers
  import opened Text
  import Promos

  /** The fixed tax added to every total. */
  const TAXES := 59

  /** The part of a loaded experience the page computes with. */
  datatype LoadedExperience = LoadedExperience(id: string, price: int)

  /** `qty` from the address: `parseInt(qty ?? "1", 10) || 1`; `NaN` and 0 are falsy and give 1. */
  function QtyParam(raw: Option<string>): (q: int)
    ensures q != 0
    ensures raw.None? ==> q == 1
    ensures raw.Some? && ParseInt(raw.value) in {None, Some(0)} ==> q == 1
    ensures raw.Some? && ParseInt(raw.value).Some? && ParseInt(raw.value).value != 0 ==>
              q == ParseInt(raw.value).value
  {
    ParseIntReadsIntText("", 1, "");
    assert "" + IntText(1) + "" == "1";
    match ParseInt(raw.GetOr("1"))
    case None => 1
    case Some(n) => if n == 0 then 1 else n
  }

  /** A non-zero quantity written into the address, with any spaces before it, is read back as itself. */
  lemma QtyParamReadsQuantity(pad: string, n: int)
    requires forall k :: 0 <= k < |pad| ==> IsWhitespace(pad[k])
    requires n != 0
    ensures QtyParam(Some(pad + IntText(n))) == n
  {
    ParseIntReadsIntText(pad, n, "");
    assert pad + IntText(n) + "" == pad + IntText(n);
  }

  /** Examples of the two codes: a tenth of 1000 is 100, and the flat 100 is capped at a subtotal of 50. */
  lemma PromoExamples()
    ensures Save10Discount(1000) == 100 && Save10Discount(15) == 2 && Save10Discount(14) == 1
    ensures Flat100Discount(50) == 50 && Flat100Discount(250) == 100
  {
  }

  /** `(experience?.price ?? 0) * quantity`. */
  function Subtotal(experience: Option<LoadedExperience>, quantity: int): (r: int)
    ensures experience.None? ==> r == 0
    ensures experience.Some? && experience.value.price >= 0 && quantity >= 0 ==> r >= 0
  {
    if experience.None? then 0 else experience.value.price * quantity
  }

  /** `Math.max(0, subtotal - discountAmount)`. */
  function TotalAfterDiscount(subtotal: int, discountAmount: int): (r: int)
    ensures r >= 0 && r >= subtotal - discountAmount
    ensures r == 0 || r == subtotal - discountAmount
  {
    if subtotal - discountAmount > 0 then subtotal - discountAmount else 0
  }

  /** The amount shown as the total: never less than the tax. */
  function Total(subtotal: int, discountAmount: int): (r: int)
    ensures r >= TAXES
    ensures discountAmount >= 0 ==> r - TAXES <= if subtotal > 0 then subtotal else 0
  {
    TotalAfterDiscount(subtotal, discountAmount) + TAXES
  }

  /** `Math.round(num / den)`: the nearest integer, a half rounding up (towards +infinity). */
  function RoundHalfUp(num: int, den: int): (r: int)
    requires den > 0
    ensures 2 * den * r - den <= 2 * num < 2 * den * r + den
  {
    (2 * num + den) / (2 * den)
  }

  /** The SAVE10 discount, `Math.round(subtotal * 10 / 100)`: a tenth of the subtotal, to the nearest unit. */
  function Save10Discount(subtotal: int): (r: int)
    ensures 10 * r - 5 <= subtotal < 10 * r + 5
  {
    RoundHalfUp(subtotal * 10, 100)
  }

  /** The FLAT100 discount, `Math.min(100, subtotal)`. */
  function Flat100Discount(subtotal: int): (r: int)
    ensures r <= 100 && r <= subtotal
    ensures r == 100 || r == subtotal
  {
    if 100 <= subtotal then 100 else subtotal
  }

  /** SAVE10 is the subtotal plus five, divided by ten and rounded down. */
  lemma Save10ClosedForm(subtotal: int)
    ensures Save10Discount(subtotal) == (subtotal + 5) / 10
  {
  }

  /** For a non-negative subtotal, both discounts lie between 0 and the subtotal. */
  lemma DiscountsWithinSubtotal(subtotal: int)
    requires subtotal >= 0
    ensures 0 <= Save10Discount(subtotal) <= subtotal
    ensures 0 <= Flat100Discount(subtotal) <= subtotal
  {
  }

  /** What the promo fields can hold together: no code and no discount, or a known code and its discount. */
  predicate DiscountConsistent(subtotal: int, promoApplied: Option<string>, discountAmount: int)
  {
    || (promoApplied == None && discountAmount == 0)
    || (promoApplied == Some("SAVE10") && discountAmount == Save10Discount(subtotal))
    || (promoApplied == Some("FLAT100") && discountAmount == Flat100Discount(subtotal))
  }

  /**
   * With consistent promo fields and a non-negative subtotal, the discount never
   * exceeds the subtotal, so the `max` never clips and the total is exact.
   */
  lemma ConsistentTotalIsExact(subtotal: int, promoApplied: Option<string>, discountAmount: int)
    requires subtotal >= 0
    requires DiscountConsistent(subtotal, promoApplied, discountAmount)
    ensures 0 <= discountAmount <= subtotal
    ensures TotalAfterDiscount(subtotal, discountAmount) == subtotal - discountAmount
    ensures Total(subtotal, discountAmount) == subtotal - discountAmount + TAXES
  {
  }

  /** The discount a promo descriptor of the backend describes, applied to a subtotal. */
  function DescribedDiscount(promo: Promos.PromoCode, subtotal: int): int
  {
    match promo.discountType
    case Percentage => RoundHalfUp(subtotal * promo.discountValue, 100)
    case Flat => if promo.discountValue <= subtotal then promo.discountValue else subtotal
  }

  /** The page's discount for each seeded code is the one the seeded descriptor describes. */
  lemma CheckoutAgreesWithSeededCodes(subtotal: int)
    ensures Save10Discount(subtotal) == DescribedDiscount(Promos.SEEDED["SAVE10"], subtotal)
    ensures Flat100Discount(subtotal) == DescribedDiscount(Promos.SEEDED["FLAT100"], subtotal)
  {
  }

  /** The promo-code box of the page: its input and the three fields `applyPromo` sets. */
  class PromoForm {
    const subtotal: int
    var promoCode: string
    var promoError: string
    var promoApplied: Option<string>
    var discountAmount: int

    ghost predicate Consistent()
      reads this
    {
      DiscountConsistent(subtotal, promoApplied, discountAmount)
    }

    constructor (subtotal: int)
      ensures this.subtotal == subtotal
      ensures promoCode == "" && promoError == "" && promoApplied == None && discountAmount == 0
      ensures Consistent()
    {
      this.subtotal := subtotal;
      promoCode := "";
      promoError := "";
      promoApplied := None;
      discountAmount := 0;
    }

    /** Typing into the promo-code input. */
    method EditCode(text: string)
      modifies this`promoCode
      ensures promoCode == text
    {
      promoCode := text;
    }

    /** `applyPromo`: the field updates in the page's order. */
    method ApplyPromo()
      modifies this`promoError, this`promoApplied, this`discountAmount
      ensures var code := Upper(Trim(promoCode));
        && (code == "" ==>
              && promoError == "Enter a promo code"
              && promoApplied == old(promoApplied) && discountAmount == old(discountAmount))
        && (code == "SAVE10" ==>
              promoError == "" && promoApplied == Some("SAVE10") && discountAmount == Save10Discount(subtotal))
        && (code == "FLAT100" ==>
              promoError == "" && promoApplied == Some("FLAT100") && discountAmount == Flat100Discount(subtotal))
        && (code != "" && code != "SAVE10" && code != "FLAT100" ==>
              promoError == "Invalid promo code" && promoApplied == None && discountAmount == 0)
      // the codes the page accepts are the keys of the seeded promo table, with the discount it describes
      ensures var code := Upper(Trim(promoCode));
        code != "" ==>
          && (promoApplied.Some? <==> code in Promos.SEEDED)
          && (code in Promos.SEEDED ==> discountAmount == DescribedDiscount(Promos.SEEDED[code], subtotal))
      ensures old(Consistent()) ==> Consistent()
      ensures Upper(Trim(promoCode)) != "" ==> Consistent()
    {
      promoError := "";
      var code := Upper(Trim(promoCode));
      if code == "" {
        promoError := "Enter a promo code";
        return;
      }
      if code == "SAVE10" {
        var amount := RoundHalfUp(subtotal * 10, 100);
        discountAmount := amount;
        promoApplied := Some(code);
        promoError := "";
      } else if code == "FLAT100" {
        var amount := 100;
        discountAmount := if amount <= subtotal then amount else subtotal;
        promoApplied := Some(code);
        promoError := "";
      } else {
        promoError := "Invalid promo code";
        promoApplied := None;
        discountAmount := 0;
      }
    }
  }

  /** Neither white space nor '@': the character class `[^\s@]` of the e-mail pattern. */
  predicate NoSpaceOrAt(s: string)
  {
    forall i :: 0 <= i < |s| ==> !IsWhitespace(s[i]) && s[i] != '@'
  }

  /** `/^[^\s@]+@[^\s@]+\.[^\s@]+$/`, read as the strings it matches. */
  ghost predicate MatchesEmailPattern(s: string)
  {
    exists a, b, c :: s == a + "@" + b + "." + c
      && a != [] && b != [] && c != []
      && NoSpaceOrAt(a) && NoSpaceOrAt(b) && NoSpaceOrAt(c)
  }

  /** A '.' in `d` with at least one character on each side of it. */
  predicate HasInnerDot(d: string)
  {
    |d| >= 3 && 1 + IndexOf(d[1..], '.') < |d| - 1
  }

  /** The check's reading of `s`: the '@' at `at` splits it into a local part and a domain with an inner dot. */
  predicate EmailSplit(s: string, at: nat)
  {
    0 < at < |s| && NoSpaceOrAt(s[..at]) && NoSpaceOrAt(s[at + 1..]) && HasInnerDot(s[at + 1..])
  }

  /** Every string split by its first '@' the check's way is matched by the regular expression. */
  lemma SplitMatchesPattern(s: string)
    ensures EmailSplit(s, IndexOf(s, '@')) ==> MatchesEmailPattern(s)
  {
    var at := IndexOf(s, '@');
    if EmailSplit(s, at) {
      var d := s[at + 1..];
      var dot := 1 + IndexOf(d[1..], '.');
      var a, b, c := s[..at], d[..dot], d[dot + 1..];
      assert d == b + "." + c;
      assert s == a + "@" + b + "." + c;
      assert NoSpaceOrAt(b) && NoSpaceOrAt(c);
    }
  }

  /** The domain part of a matched string has no white space and no '@'. */
  lemma DomainHasNoSpaceOrAt(b: string, c: string)
    requires NoSpaceOrAt(b) && NoSpaceOrAt(c)
    ensures NoSpaceOrAt(b + "." + c)
  {
  }

  /** The domain part of a matched string has a '.' with a character on each side. */
  lemma DomainHasInnerDot(b: string, c: string)
    requires b != [] && c != []
    ensures HasInnerDot(b + "." + c)
  {
    var d := b + "." + c;
    assert d[1..][|b| - 1] == '.';
  }

  /** A string built the regular expression's way splits at its first '@' the check's way. */
  lemma PartsGiveSplit(s: string, a: string, b: string, c: string)
    requires s == a + "@" + b + "." + c
    requires a != [] && b != [] && c != []
    requires NoSpaceOrAt(a) && NoSpaceOrAt(b) && NoSpaceOrAt(c)
    ensures EmailSplit(s, IndexOf(s, '@'))
  {
    var d := b + "." + c;
    assert s == a + ("@" + d);
    assert s[|a|] == '@';
    assert s[..|a|] == a;
    assert s[|a| + 1..] == d;
    assert IndexOf(s, '@') == |a|;
    DomainHasNoSpaceOrAt(b, c);
    DomainHasInnerDot(b, c);
  }

  /** Every string the regular expression matches splits at its first '@' the check's way. */
  lemma PatternGivesSplit(s: string)
    ensures MatchesEmailPattern(s) ==> EmailSplit(s, IndexOf(s, '@'))
  {
    if MatchesEmailPattern(s) {
      var a, b, c :| s == a + "@" + b + "." + c
        && a != [] && b != [] && c != []
        && NoSpaceOrAt(a) && NoSpaceOrAt(b) && NoSpaceOrAt(c);
      PartsGiveSplit(s, a, b, c);
    }
  }

  /**
   * `isEmailValid`: the test of `/^[^\s@]+@[^\s@]+\.[^\s@]+$/`, decided by one
   * scan for the '@' and one for the '.' after it.
   */
  function IsEmailValid(s: string): (r: bool)
    ensures r <==> MatchesEmailPattern(s)
  {
    SplitMatchesPattern(s);
    PatternGivesSplit(s);
    EmailSplit(s, IndexOf(s, '@'))
  }

  /** The fields `canPay` reads. */
  datatype CheckoutForm = CheckoutForm(
    experience: Option<LoadedExperience>,
    expId: string,
    dateParam: string,
    timeParam: string,
    quantity: int,
    fullName: string,
    email: string,
    agree: bool)

  /**
   * `canPay`: the confirm button is enabled. The name's `length` counts UTF-16
   * code units; trimming by characters cuts the same text, because every
   * white-space character lies below U+FFFF.
   */
  predicate CanPay(f: CheckoutForm)
    ensures CanPay(f) <==>
              && f.experience.Some? && f.dateParam != "" && f.timeParam != "" && f.quantity > 0
              && Utf16Length(Trim(f.fullName)) >= 2
              && MatchesEmailPattern(f.email) && f.agree
  {
    && f.experience.Some?
    && f.dateParam != ""
    && f.timeParam != ""
    && f.quantity > 0
    && Utf16Length(Trim(f.fullName)) > 1
    && IsEmailValid(f.email)
    && f.agree
  }

  /** A name of one character above U+FFFF is two code units long and passes the gate; one ASCII letter does not. */
  lemma CanPayCountsCodeUnits(f: CheckoutForm)
    requires f.experience.Some? && f.dateParam != "" && f.timeParam != "" && f.quantity > 0
    requires f.email == "a@b.c" && f.agree
    ensures f.fullName == "\U{1D49C}" ==> CanPay(f)
    ensures f.fullName == "A" ==> !CanPay(f)
  {
    PartsGiveSplit("a@b.c", "a", "b", "c");
    if f.fullName == "\U{1D49C}" {
      LeadingWhitespaceIs(f.fullName, 0);
      assert Trim(f.fullName) == f.fullName;
      assert Utf16Length(f.fullName) == 2;
    }
  }

  /** What `onConfirm` passes on to the confirmation page. */
  datatype Confirmation = Confirmation(
    exp: string, date: string, time: string, qty: int,
    name: string, email: string, promo: string, discount: int)

  /**
   * `onConfirm`: nothing when the form may not be paid; otherwise the payload
   * built from the form and the promo fields, which then meets every check of the gate.
   */
  function OnConfirm(f: CheckoutForm, promoApplied: Option<string>, discountAmount: int): (r: Option<Confirmation>)
    ensures r.Some? <==> CanPay(f)
    ensures r.Some? ==>
              && r.value.exp == f.expId && r.value.date == f.dateParam && r.value.time == f.timeParam
              && r.value.qty == f.quantity && r.value.name == f.fullName && r.value.email == f.email
              && r.value.promo == (if promoApplied.Some? then promoApplied.value else "")
              && r.value.discount == discountAmount
    ensures r.Some? ==>
              && r.value.date != "" && r.value.time != "" && r.value.qty > 0
              && Utf16Length(Trim(r.value.name)) >= 2
              && MatchesEmailPattern(r.value.email)
  {
    if !CanPay(f) then None
    else
      Some(Confirmation(f.expId, f.dateParam, f.timeParam, f.quantity, f.fullName, f.email,
                        promoApplied.GetOr(""), discountAmount))
  }
}

=== FILE: corrected_booking.dfy ===
/**
 * The booking handler as its checks evidently intend it: the quantity must be
 * positive, the name and e-mail the booking schema requires are checked with the
 * other fields, and a booking the ledger refuses takes no seats (the two writes
 * act as one). On every request it accepts, it behaves as the handler does.
 */
module CorrectedBooking {
  import opened Wrappers
  import opened Bookings
  import opened BookingProperties

  /** Every field the booking needs is present, and the quantity is positive. */
  predicate FieldsValid(req: BookingRequest)
  {
    FieldsPresent(req) && Truthy(req.userName) && Truthy(req.userEmail) && req.quantity.value > 0
  }

  /** The corrected handler: validation before any write, and no write unless both succeed. */
  function HandleBookingCorrected(db: Db, req: BookingRequest, randomText: string): (out: Outcome)
    ensures out.reply.Failed? ==> out.db == db
    ensures !FieldsValid(req) ==> out.reply.Status() == 400
    ensures out.reply.Confirmed? <==> FieldsValid(req) && HandleBooking(db, req, randomText).reply.Confirmed?
    ensures out.reply.Confirmed? ==> out == HandleBooking(db, req, randomText)
    ensures FieldsValid(req) && out.reply.Failed? ==>
              out.reply == HandleBooking(db, req, randomText).reply
  {
    if !FieldsPresent(req) || !Truthy(req.userName) || !Truthy(req.userEmail) then
      Outcome(Failed(400, "Missing required fields"), db)
    else if req.quantity.value < 0 then
      Outcome(Failed(400, "Invalid quantity"), db)
    else
      var written := HandleBooking(db, req, randomText);
      if written.reply.Confirmed? then written else Outcome(written.reply, db)
  }

  /** Seats booked in a ledger with one more entry: the entry counts when it is for the same offering. */
  lemma BookedAppend(ledger: seq<Booking>, b: Booking, id: ExperienceId, date: string, time: string)
    ensures Booked(ledger + [b], id, date, time)
            == Booked(ledger, id, date, time)
               + if b.experience == id && b.date == date && b.time == time then b.quantity else 0
  {
    assert (ledger + [b])[..|ledger|] == ledger;
  }

  /**
   * Seats are conserved on every request: free seats plus the seats the ledger
   * records stay the same for every (experience, date, time), with no exception.
   */
  lemma CorrectedConservesSeats(db: Db, req: BookingRequest, randomText: string,
                                id: ExperienceId, date: string, time: string)
    ensures var out := HandleBookingCorrected(db, req, randomText);
      Remaining(out.db.experiences, id, date, time) + Booked(out.db.ledger, id, date, time)
      == Remaining(db.experiences, id, date, time) + Booked(db.ledger, id, date, time)
  {
    BookingConservesSeats(db, req, randomText, id, date, time);
  }

  /** No request raises the free seats of any offering. */
  lemma CorrectedNeverAddsSeats(db: Db, req: BookingRequest, randomText: string,
                                id: ExperienceId, date: string, time: string)
    ensures Remaining(HandleBookingCorrected(db, req, randomText).db.experiences, id, date, time)
            <= Remaining(db.experiences, id, date, time)
  {
    var out := HandleBookingCorrected(db, req, randomText);
    if out.reply.Confirmed? {
      CorrectedConservesSeats(db, req, randomText, id, date, time);
      var b := out.db.ledger[|db.ledger|];
      assert out.db.ledger == db.ledger + [b];
      BookedAppend(db.ledger, b, id, date, time);
    }
  }
}

=== FILE: pricing_agreement.dfy ===
/**
 * How the total the checkout page shows relates to the total the booking
 * handler charges: the handler computes price times quantity plus the same tax,
 * and takes no promo code, so the two agree exactly when no discount is shown.
 */
module PricingAgreement {
  import opened Wrappers
  import Bookings
  import Checkout

  /**
   * What the handler charges for the price and quantity the page prices: the
   * page's total without any discount, with the same tax of 59. A discount the
   * page showed is therefore not taken off; nothing in the frontend posts a
   * booking, so this compares the two computations, not a request the page sends.
   */
  lemma ServerChargesUndiscountedTotal(db: Bookings.Db, req: Bookings.BookingRequest, randomText: string,
                                       promoApplied: Option<string>, discountAmount: int)
    requires Bookings.HandleBooking(db, req, randomText).reply.Confirmed?
    ensures Checkout.TAXES == Bookings.TAXES == 59
    ensures var out := Bookings.HandleBooking(db, req, randomText);
      var experience := Checkout.LoadedExperience(req.experienceId.value,
                                                  db.experiences[req.experienceId.value].price);
      var subtotal := Checkout.Subtotal(Some(experience), req.quantity.value);
      && (subtotal >= 0 ==> out.reply.totalAmount == Checkout.Total(subtotal, 0))
      && (subtotal >= 0 && Checkout.DiscountConsistent(subtotal, promoApplied, discountAmount) && discountAmount > 0 ==>
            out.reply.totalAmount == Checkout.Total(subtotal, discountAmount) + discountAmount)
  {
  }
}

=== FILE: promos.dfy ===
/**
 * The `GET /api/promocode/:code` route of the backend: a lookup of the
 * upper-cased code in the promo-code collection.
 */
module Promos {
  import opened Wrappers
  import opened Text

  datatype DiscountType = Percentage | Flat

  datatype PromoCode = PromoCode(code: string, discountType: DiscountType, discountValue: int)

  /** The promo-code collection, each document filed under its code. */
  type PromoTable = map<string, PromoCode>

  /** The reply: 200 with `valid: true` and the discount, or 404 with `valid: false`. */
  datatype PromoReply =
    | PromoFound(discountType: DiscountType, discountValue: int, message: string)
    | PromoNotFound(message: string)
  {
    function Status(): int
    {
      if PromoFound? then 200 else 404
    }
  }

  /** The two codes the database is seeded with. */
  const SEEDED: PromoTable := map[
    "SAVE10" := PromoCode("SAVE10", Percentage, 10),
    "FLAT100" := PromoCode("FLAT100", Flat, 100)]

  /** Each document is filed under its own code. */
  ghost predicate WellKeyed(table: PromoTable)
  {
    forall k :: k in table ==> table[k].code == k
  }

  /** The human-readable message of a found code. */
  function OffMessage(discountType: DiscountType, value: int): string
  {
    match discountType
    case Percentage => IntText(value) + "% off applied"
    case Flat => ['₹'] + IntText(value) + " off applied"
  }

  /**
   * The message states the value: a percentage message starts with its decimal
   * text, a flat one has it after the rupee sign, and `parseInt` reads the value back.
   */
  lemma OffMessageReadsValue(discountType: DiscountType, value: int)
    ensures discountType == Percentage ==> ParseInt(OffMessage(discountType, value)) == Some(value)
    ensures discountType == Flat ==>
              var r := OffMessage(discountType, value);
              |r| > 1 && r[0] == '₹' && ParseInt(r[1..]) == Some(value)
  {
    if discountType == Percentage {
      PercentMessageReadsValue(value);
    } else {
      FlatMessageReadsValue(value);
    }
  }

  lemma PercentMessageReadsValue(value: int)
    ensures ParseInt(OffMessage(Percentage, value)) == Some(value)
  {
    ParseIntReadsLeadingIntText(value, "% off applied");
  }

  lemma FlatMessageReadsValue(value: int)
    ensures var r := OffMessage(Flat, value);
      |r| > 1 && r[0] == '₹' && ParseInt(r[1..]) == Some(value)
  {
    AfterSignReadsValue('₹', value, " off applied");
  }

  /** The decimal text after a one-character sign reads back as the value. */
  lemma AfterSignReadsValue(sign: char, value: int, tail: string)
    requires tail == [] || !IsDigit(tail[0])
    ensures var r := [sign] + IntText(value) + tail;
      |r| > 1 && r[0] == sign && ParseInt(r[1..]) == Some(value)
  {
    var r := [sign] + IntText(value) + tail;
    assert r[1..] == IntText(value) + tail;
    ParseIntReadsLeadingIntText(value, tail);
  }

  /** The route handler; a database failure (500) is not modelled. */
  function CheckPromo(table: PromoTable, code: string): (r: PromoReply)
    ensures r.PromoFound? <==> Upper(code) in table
    ensures r.PromoFound? ==>
              && r.discountType == table[Upper(code)].discountType
              && r.discountValue == table[Upper(code)].discountValue
    ensures r.PromoFound? ==> r.message == OffMessage(r.discountType, r.discountValue)
    ensures r.PromoNotFound? ==> r.message == "Invalid promo code"
  {
    var key := Upper(code);
    if key !in table then PromoNotFound("Invalid promo code")
    else
      var promo := table[key];
      PromoFound(promo.discountType, promo.discountValue, OffMessage(promo.discountType, promo.discountValue))
  }

  /**
   * Looking up by key is the query on the `code` field: a code is found exactly
   * when some document's code is its upper-case form.
   */
  lemma CheckPromoQueriesCode(table: PromoTable, code: string)
    requires WellKeyed(table)
    ensures CheckPromo(table, code).PromoFound? <==>
              exists p :: p in table.Values && p.code == Upper(code)
  {
  }

  /** Any spelling of a code that upper-cases alike gets the same reply. */
  lemma CheckPromoIgnoresCase(table: PromoTable, code: string)
    ensures CheckPromo(table, Upper(code)) == CheckPromo(table, code)
  {
    UpperIdempotent(code);
  }

  /**
   * A stored code with a lower-case letter in it is never found: no query
   * upper-cases to it, and every query gets the same reply from the route
   * whether or not that document is in the collection.
   */
  lemma LowerCaseCodeUnreachable(table: PromoTable, key: string, code: string)
    requires key in table
    requires exists i :: 0 <= i < |key| && IsAsciiLower(key[i])
    ensures Upper(code) != key
    ensures CheckPromo(table, code) == CheckPromo(table - {key}, code)
  {
    assert Upper(code) != key;
    assert Upper(code) in table <==> Upper(code) in table - {key};
  }

  /** The seeded codes, in any letter case: 10 per cent and 100 flat. */
  lemma SeededCodes(code: string)
    ensures Upper(code) == "SAVE10" ==>
              CheckPromo(SEEDED, code) == PromoFound(Percentage, 10, "10% off applied")
    ensures Upper(code) == "FLAT100" ==>
              CheckPromo(SEEDED, code) == PromoFound(Flat, 100, "₹100 off applied")
    ensures Upper(code) != "SAVE10" && Upper(code) != "FLAT100" ==>
              CheckPromo(SEEDED, code) == PromoNotFound("Invalid promo code")
  {
    SeededMessages();
  }

  /** The messages of the two seeded codes. */
  lemma SeededMessages()
    ensures OffMessage(Percentage, 10) == "10% off applied"
    ensures OffMessage(Flat, 100) == "₹100 off applied"
  {
    SeededValueTexts();
    assert "10" + "% off applied" == "10% off applied";
    assert ['₹'] + "100" + " off applied" == "₹100 off applied";
  }

  /** The decimal texts of the two seeded values. */
  lemma SeededValueTexts()
    ensures IntText(10) == "10" && IntText(100) == "100"
  {
    assert NatText(1) == "1";
    assert NatText(10) == "10";
  }
}

=== FILE: text.dfy ===
/**
 * The JavaScript string primitives the booking flow relies on: the white-space
 * set shared by `trim`, `parseInt` and the regular-expression class `\s`,
 * `String.prototype.trim`, `toUpperCase` (ASCII letters only), the decimal
 * text of an integer (`String(n)`, template literals) and `parseInt(s, 10)`.
 */
module Text {
  import opened Wrappers

  /** WhiteSpace and LineTerminator code points of ECMAScript (what `\s` and `trim` use). */
  predicate IsWhitespace(c: char)
  {
    var u := c as int;
    u == 0x09 || u == 0x0A || u == 0x0B || u == 0x0C || u == 0x0D || u == 0x20
    || u == 0xA0 || u == 0x1680 || (0x2000 <= u <= 0x200A) || u == 0x2028
    || u == 0x2029 || u == 0x202F || u == 0x205F || u == 0x3000 || u == 0xFEFF
  }

  predicate IsAsciiLower(c: char) { 'a' <= c <= 'z' }

  predicate IsDigit(c: char) { '0' <= c <= '9' }

  predicate AllDigits(s: string) { forall i :: 0 <= i < |s| ==> IsDigit(s[i]) }

  /** Number of white-space characters at the start of `s`. */
  function LeadingWhitespace(s: string): (n: nat)
    ensures n <= |s|
    ensures forall k :: 0 <= k < n ==> IsWhitespace(s[k])
    ensures n < |s| ==> !IsWhitespace(s[n])
  {
    if s == [] || !IsWhitespace(s[0]) then 0 else 1 + LeadingWhitespace(s[1..])
  }

  /** Number of white-space characters at the end of `s`. */
  function TrailingWhitespace(s: string): (n: nat)
    ensures n <= |s|
    ensures forall k :: |s| - n <= k < |s| ==> IsWhitespace(s[k])
    ensures n < |s| ==> !IsWhitespace(s[|s| - 1 - n])
  {
    if s == [] || !IsWhitespace(s[|s| - 1]) then 0 else 1 + TrailingWhitespace(s[..|s| - 1])
  }

  /**
   * `String.prototype.trim`: the infix of `s` that starts at its first and ends
   * at its last non-white-space character (empty when there is none).
   */
  function Trim(s: string): (r: string)
    ensures LeadingWhitespace(s) + |r| <= |s|
    ensures r == s[LeadingWhitespace(s)..LeadingWhitespace(s) + |r|]
    ensures forall k :: 0 <= k < |s| && !IsWhitespace(s[k]) ==>
              LeadingWhitespace(s) <= k < LeadingWhitespace(s) + |r|
    ensures r != [] ==> !IsWhitespace(r[0]) && !IsWhitespace(r[|r| - 1])
  {
    var a := LeadingWhitespace(s);
    var rest := s[a..];
    var t := TrailingWhitespace(rest);
    assert forall k :: a + |rest| - t <= k < |s| ==> s[k] == rest[k - a];
    rest[..|rest| - t]
  }

  /**
   * `length` of a JavaScript string: the number of UTF-16 code units, two for a
   * character above U+FFFF (a surrogate pair) and one for any other.
   */
  function Utf16Length(s: string): (n: nat)
    ensures |s| <= n <= 2 * |s|
    ensures n == |s| <==> forall i :: 0 <= i < |s| ==> s[i] as int < 0x1_0000
  {
    if s == [] then 0
    else
      var init := s[..|s| - 1];
      assert forall i :: 0 <= i < |init| ==> init[i] == s[i];
      Utf16Length(init) + if s[|s| - 1] as int < 0x1_0000 then 1 else 2
  }

  /** The position of the first `c` in `s`, or `|s|` when there is none; the e-mail check scans with it. */
  function IndexOf(s: string, c: char): (i: nat)
    ensures i <= |s|
    ensures forall k :: 0 <= k < i ==> s[k] != c
    ensures i < |s| ==> s[i] == c
  {
    if s == [] || s[0] == c then 0 else 1 + IndexOf(s[1..], c)
  }

  /**
   * `String.prototype.substring(start, end)` for `start <= end`: both ends are
   * clamped to the length of `s`.
   */
  function Substring(s: string, start: nat, end: nat): (r: string)
    requires start <= end
    ensures |r| <= end - start && |r| <= |s|
    ensures end <= |s| ==> r == s[start..end]
    ensures start <= |s| ==> r == s[start..if end <= |s| then end else |s|]
    ensures |s| <= start ==> r == []
  {
    var a := if start <= |s| then start else |s|;
    var b := if end <= |s| then end else |s|;
    s[a..b]
  }

  /** `toUpperCase` on one character, for the ASCII letters. */
  function UpperChar(c: char): char
  {
    if IsAsciiLower(c) then (c as int - 'a' as int + 'A' as int) as char else c
  }

  /** `String.prototype.toUpperCase`, restricted to ASCII letters. */
  function Upper(s: string): (r: string)
    ensures |r| == |s|
    ensures forall i :: 0 <= i < |r| ==> !IsAsciiLower(r[i])
    ensures forall i :: 0 <= i < |s| && !IsAsciiLower(s[i]) ==> r[i] == s[i]
    ensures forall i :: 0 <= i < |s| && IsAsciiLower(s[i]) ==>
              r[i] as int - 'A' as int == s[i] as int - 'a' as int
  {
    seq(|s|, i requires 0 <= i < |s| => UpperChar(s[i]))
  }

  /** Upper-casing twice is upper-casing once. */
  lemma UpperIdempotent(s: string)
    ensures Upper(Upper(s)) == Upper(s)
  {
  }

  function DigitChar(d: nat): (c: char)
    requires d < 10
    ensures IsDigit(c)
  {
    ('0' as int + d) as char
  }

  function DigitValue(c: char): (d: nat)
    requires IsDigit(c)
    ensures d < 10 && DigitChar(d) == c
  {
    c as int - '0' as int
  }

  /** The number a string of decimal digits denotes. */
  function DigitsValue(s: string): nat
    requires AllDigits(s)
  {
    if s == [] then 0 else 10 * DigitsValue(s[..|s| - 1]) + DigitValue(s[|s| - 1])
  }

  /** `String(n)` for a natural number: its shortest decimal text. */
  function NatText(n: nat): (r: string)
    ensures r != [] && AllDigits(r)
    ensures DigitsValue(r) == n
    ensures |r| > 1 ==> r[0] != '0'
  {
    if n < 10 then [DigitChar(n)]
    else
      var init := NatText(n / 10);
      var r := init + [DigitChar(n % 10)];
      assert r[..|r| - 1] == init;
      r
  }

  /** `String(n)` for an integer: a minus sign before the digits of a negative number. */
  function IntText(n: int): (r: string)
    ensures r != []
    ensures r[0] == '-' <==> n < 0
    ensures n < 0 ==> r[1..] == NatText(-n)
    ensures n >= 0 ==> r == NatText(n)
  {
    if n < 0 then "-" + NatText(-n) else NatText(n)
  }

  /** Number of decimal digits at the start of `s`. */
  function LeadingDigits(s: string): (n: nat)
    ensures n <= |s|
    ensures AllDigits(s[..n])
    ensures n < |s| ==> !IsDigit(s[n])
  {
    if s == [] || !IsDigit(s[0]) then 0
    else
      var n := 1 + LeadingDigits(s[1..]);
      assert s[..n] == [s[0]] + s[1..][..n - 1];
      n
  }

  /**
   * `parseInt(s, 10)`: skip leading white space, read an optional sign and the
   * longest run of decimal digits after it; `None` stands for `NaN` (no digits).
   */
  function ParseInt(s: string): (r: Option<int>)
    ensures r.None? <==> LeadingDigits(Unsigned(s[LeadingWhitespace(s)..])) == 0
  {
    ParseSigned(s[LeadingWhitespace(s)..])
  }

  /** The part of `parseInt` after the white space: an optional sign and the digits that follow it. */
  function ParseSigned(t: string): (r: Option<int>)
    ensures r.None? <==> LeadingDigits(Unsigned(t)) == 0
  {
    var body := Unsigned(t);
    var n := LeadingDigits(body);
    if n == 0 then None
    else
      var v: int := DigitsValue(body[..n]);
      Some(if t[0] == '-' then -v else v)
  }

  /** `t` without its leading sign character, if it has one. */
  function Unsigned(t: string): (body: string)
    ensures |body| <= |t|
    ensures t != [] && IsDigit(t[0]) ==> body == t
  {
    if t != [] && (t[0] == '-' || t[0] == '+') then t[1..] else t
  }

  /** The white-space count is the one index that ends a white-space run at a non-white-space character. */
  lemma LeadingWhitespaceIs(s: string, n: nat)
    requires n <= |s|
    requires forall k :: 0 <= k < n ==> IsWhitespace(s[k])
    requires n < |s| ==> !IsWhitespace(s[n])
    ensures LeadingWhitespace(s) == n
  {
  }

  /** The digit count is the one index that ends a digit run at a non-digit. */
  lemma LeadingDigitsIs(s: string, n: nat)
    requires n <= |s|
    requires AllDigits(s[..n])
    requires n < |s| ==> !IsDigit(s[n])
    ensures LeadingDigits(s) == n
  {
    if n > 0 {
      assert IsDigit(s[..n][0]);
      assert s[1..][..n - 1] == s[..n][1..];
      LeadingDigitsIs(s[1..], n - 1);
    }
  }

  /** The sign and digits of an integer's decimal text read back as the integer when no digit follows. */
  lemma ParseSignedReadsIntText(n: int, rest: string)
    requires rest == [] || !IsDigit(rest[0])
    ensures ParseSigned(IntText(n) + rest) == Some(n)
  {
    var t := IntText(n) + rest;
    var digits := if n < 0 then NatText(-n) else NatText(n);
    var body := Unsigned(t);
    assert body == digits + rest by {
      if n < 0 {
        assert IntText(n) == "-" + digits;
        assert t[1..] == digits + rest;
      }
    }
    assert body[..|digits|] == digits;
    LeadingDigitsIs(body, |digits|);
  }

  /**
   * `parseInt` reads back the decimal text of every integer, skipping white
   * space before it and ignoring whatever follows that is not a digit.
   */
  lemma ParseIntReadsIntText(pad: string, n: int, rest: string)
    requires forall k :: 0 <= k < |pad| ==> IsWhitespace(pad[k])
    requires rest == [] || !IsDigit(rest[0])
    ensures ParseInt(pad + IntText(n) + rest) == Some(n)
  {
    var txt := IntText(n);
    var s := pad + txt + rest;
    assert s[|pad|] == txt[0];
    assert forall k :: 0 <= k < |pad| ==> s[k] == pad[k];
    LeadingWhitespaceIs(s, |pad|);
    assert s[|pad|..] == txt + rest;
    ParseSignedReadsIntText(n, rest);
  }

  /** `parseInt` reads an integer's decimal text back from the start of a string when no digit follows it. */
  lemma ParseIntReadsLeadingIntText(n: int, rest: string)
    requires rest == [] || !IsDigit(rest[0])
    ensures ParseInt(IntText(n) + rest) == Some(n)
  {
    var s := IntText(n) + rest;
    assert s[0] == IntText(n)[0];
    LeadingWhitespaceIs(s, 0);
    assert s[0..] == s;
    ParseSignedReadsIntText(n, rest);
  }
}

=== FILE: wrappers.dfy ===
/** An optional value: JavaScript's `undefined`/`null` versus a present value. */
module Wrappers {

  datatype Option<+T> = None | Some(value: T) {

    /** The value, or `default` when absent (JavaScript's `??`). */
    function GetOr(default: T): T
    {
      match this
      case Some(v) => v
      case None => default
    }
  }
}
